=== FILE: README.md ===
# Replify dashboard: the three client-side state machines

Replify's dashboard is a React front end for a WhatsApp business assistant.
Almost all of it is markup and HTTP calls. Underneath sit three small state
machines, and this project models them in Dafny as pure transition functions
over immutable datatypes:

- **`AppShell`** (`app_shell.dfy`) is the session/view resolver of `src/App.jsx`.
  It chooses the screen to show: a loading spinner, login, onboarding or the
  dashboard. Its inputs are the auth provider's state, the business lookup,
  sign-out, completion of onboarding, and Login's "create an account" link.
- **`OnboardingWizard`** (`onboarding.dfy`) is the wizard of
  `src/pages/Onboarding.jsx`. Steps 0–4 are forms and step 5 is the success
  screen. The wizard has an error/loading pair and an editable product
  catalogue. Its registration payload keeps only the products whose name is
  not blank.
- **`InboxController`** (`inbox.dfy`) is the inbox of `src/pages/Dashboard.jsx`.
  It covers the conversation query built from the filter tab, the stats and
  message caches, the reply box with its send guard, take-over and resolve,
  and the rules that decide which controls are shown. It also covers the
  status-badge and message-role labels.

Two helper modules support them. `Common` (`common.dfy`) holds `Option` and
the identifier types. `Text` (`text.dfy`) models JavaScript's `trim`, using
the ECMAScript whitespace set, and the "first letter upper-cased" idiom.

Every asynchronous call is modelled the same way. The transition that starts
it returns a request value (`SignUp`, `Register`, `ListConversations`,
`PostReply`, …). Its reply comes back as a later event parameter (`LookupSettled`, `SignupDone`, `SendSettled`,
`TakeoverSettled`, …). So the model has no concurrency: each handler is one
pure function. Each machine also has an `Event` type, a `Step` function and
the trace invariant it keeps:

- The shell never shows the dashboard without a business id.
- Through its own controls, the wizard's step stays within 0..5 and its
  catalogue is never empty.
- In the inbox, no offered action posts a reply while the selected
  conversation is resolved. With the corrected keyboard handler
  (`InboxController.KeyDown`, which `InboxController.Step` uses), no offered
  action posts a reply while one is in flight either. The keyboard handler
  as written does post a second reply; see "## Findings".

Four behaviours of the code are worth stating up front:

- **Message fetch failure.** A failed message fetch keeps the previous
  messages (`InboxController.OnMessages`).
- **Take-over and resolve timing.** Take-over and resolve change the local
  copy only after the POST resolves, and a rejected POST changes nothing
  (`InboxController.FinishMark`).
- **Rejected sign-up.** `handleStep0` awaits `signUp` outside any `try`. A
  rejected promise therefore leaves the wizard loading for good, with
  Continue disabled (`OnboardingWizard.SignupThrowStrands`).
- **Extra refreshes.** A successful take-over or resolve replaces the
  selected object, so the selection effect also re-fetches that
  conversation's messages. Choosing another filter tab re-runs the polling
  effect, so the stats are re-fetched as well. The model includes both
  requests.

## Model

| member | source | states |
|---|---|---|
| Text.Trim | src/pages/Dashboard.jsx:77 | the trimmed reply is no longer than the input, and it is empty or starts and ends with a non-whitespace character |
| Text.TrimIsInfix | src/pages/Onboarding.jsx:96 | `trim` removes only a whitespace prefix and a whitespace suffix; what remains is a contiguous slice of the input |
| Text.BlankIffAllSpace | src/pages/Dashboard.jsx:261 | `!s.trim()` holds exactly when every character of `s` is whitespace |
| Text.TrimIdempotent | src/pages/Dashboard.jsx:80 | trimming an already trimmed reply changes nothing |
| Text.Capitalize | src/pages/Dashboard.jsx:123 | the first character is upper-cased, the rest kept, the length unchanged; the empty string stays empty |
| AppShell.Init | src/App.jsx:24-25 | the shell starts in `checking` with no business id; it renders the loading screen and satisfies the dashboard invariant |
| AppShell.OnAuthChanged | src/App.jsx:28-37 | while auth is loading, nothing changes and no lookup starts; with no user, the view becomes `login`; with a user, the view becomes `checking` and that user's business is looked up; the business id is never touched |
| AppShell.OnLookup | src/App.jsx:38-51 | a found business sets the id and shows the dashboard; any failure, 404 or not, shows onboarding and keeps the business id |
| AppShell.LookupFailureKindIrrelevant | src/App.jsx:44-51 | a 404 and any other lookup failure lead to the same state |
| AppShell.OnSignedOut | src/App.jsx:54-58 | sign-out clears the business id and shows login |
| AppShell.OnOnboardingComplete | src/App.jsx:60-63 | completing onboarding with an id stores that id and shows the dashboard |
| AppShell.OnNeedSignup | src/App.jsx:70 | Login's signup link shows onboarding and keeps the business id |
| AppShell.Render | src/App.jsx:66-89 | each view renders exactly one screen, and `ScreenView` inverts it; the dashboard screen appears only in view `dashboard` and receives the current business id |
| AppShell.RenderSeparatesViews | src/App.jsx:66-89 | different views render different screens |
| AppShell.Step | src/App.jsx:28-70 | every event keeps the invariant "view `dashboard` implies a business id" |
| AppShell.RunKeepsConsistent | src/App.jsx:41-42 | no sequence of events ever reaches the dashboard view without a business id |
| AppShell.ReachableDashboardHasBusiness | src/App.jsx:80-86 | in every state reachable from mount, a rendered dashboard is given a business id |
| AppShell.LoadingIsInert | src/App.jsx:29 | however often the effect fires while auth is loading, the state stays the same |
| AppShell.NoUserShowsLogin | src/App.jsx:31-34 | a settled session without a user shows login, whatever was shown before |
| AppShell.SignInFlow | src/App.jsx:36-51 | a signed-in user sees the loading screen; a found business then opens its dashboard, while a failed lookup opens onboarding with everything else unchanged |
| OnboardingWizard.WithField | src/pages/Onboarding.jsx:54 | the spread update sets the named field and keeps the other three |
| OnboardingWizard.EmptyProduct | src/pages/Onboarding.jsx:19 | all four fields of a fresh product are empty strings |
| OnboardingWizard.UpdateProduct | src/pages/Onboarding.jsx:53-55 | only the given field of entry `index` changes; the length and all other entries are kept; an index out of range changes nothing |
| OnboardingWizard.UpdateWithCurrentValueIsIdentity | src/pages/Onboarding.jsx:53-55 | writing back a field's current value leaves the catalogue equal to what it was |
| OnboardingWizard.AddProduct | src/pages/Onboarding.jsx:57-59 | the catalogue grows by one empty product at the end, and the existing entries are kept |
| OnboardingWizard.RemoveProduct | src/pages/Onboarding.jsx:61-63 | only entry `index` is dropped: earlier entries are kept in place, later ones shift down by one, the multiset loses exactly that product, and an index out of range changes nothing |
| OnboardingWizard.RemoveUndoesAdd | src/pages/Onboarding.jsx:57-63 | removing the product just added restores the catalogue |
| OnboardingWizard.SubmittedCatalogue | src/pages/Onboarding.jsx:96 | the submitted catalogue is a subsequence of the catalogue holding only named products; each named product appears as often as in the catalogue, and no unnamed one appears |
| OnboardingWizard.SubmittedKeepsNamed | src/pages/Onboarding.jsx:96 | a catalogue whose products are all named is submitted unchanged |
| OnboardingWizard.SubmittedIdempotent | src/pages/Onboarding.jsx:96 | filtering the submitted catalogue again changes nothing |
| OnboardingWizard.Init | src/pages/Onboarding.jsx:23-25 | the wizard starts at step 0, not loading, with no error and no user, with all thirteen form inputs empty, and with a catalogue of exactly one empty product |
| OnboardingWizard.BuildPayload | src/pages/Onboarding.jsx:83-97 | the payload carries the signed-up user's id, each of the eleven business fields of the form under its own key, and only the named products; the credentials are not sent |
| OnboardingWizard.Continue | src/pages/Onboarding.jsx:108-113 | Continue clears the error; step 0 starts sign-up with the entered credentials and sets loading; step 4 starts registration with the built payload and sets loading; any other step advances by exactly one; user, form and catalogue are kept |
| OnboardingWizard.Back | src/pages/Onboarding.jsx:115-118 | Back clears the error and goes back exactly one step; nothing else changes |
| OnboardingWizard.BackUndoesContinue | src/pages/Onboarding.jsx:108-118 | on steps 1–3, Continue then Back returns to the same state with the error cleared |
| OnboardingWizard.OnSignup | src/pages/Onboarding.jsx:65-77 | a sign-up failure keeps the step and stores the message; a success stores the user id and moves to step 1; loading ends in both cases; a rejected `signUp` promise changes nothing, so loading stays on |
| OnboardingWizard.SubmitError | src/pages/Onboarding.jsx:102 | a non-empty backend `detail` is shown as is; an absent or empty one gives the fixed default text |
| OnboardingWizard.OnRegister | src/pages/Onboarding.jsx:98-105 | success moves to step 5 and hands the returned business id to the shell, and nothing else changes; failure keeps the step and sets the error; loading ends in both cases |
| OnboardingWizard.ContinueButtonLabel | src/pages/Onboarding.jsx:340 | the label is "Please wait…" exactly while loading, "Finish setup" exactly on step 4 when not loading, and "Continue" otherwise |
| OnboardingWizard.ShowsChevron | src/pages/Onboarding.jsx:341 | the chevron shows exactly when not loading and before step 4, and only next to "Continue" |
| OnboardingWizard.StepHeading | src/pages/Onboarding.jsx:165 | the heading reads "Step n of 5 — title", with n one more than the step and the title that step's |
| OnboardingWizard.StepHeadingsDistinct | src/pages/Onboarding.jsx:11-17 | no two steps share a heading |
| OnboardingWizard.Offered | src/pages/Onboarding.jsx:329-341 | an offered Continue is never the "Please wait…" button, an offered remove never empties the catalogue, and catalogue controls only name existing entries |
| OnboardingWizard.Step | src/pages/Onboarding.jsx:53-118 | only Continue and the registration reply issue a request; only Continue, Back and the two replies move the step; only the catalogue controls change the catalogue |
| OnboardingWizard.SignupThrowStrands | src/pages/Onboarding.jsx:65-68 | after Continue on step 0 and a rejected `signUp`, whatever the user does next, the wizard stays loading, Continue is not offered and it reads "Please wait…" |
| OnboardingWizard.UserEventsKeepLoading | src/pages/Onboarding.jsx:337 | no sequence of user actions turns `loading` off; only the replies to sign-up and registration do |
| OnboardingWizard.StepKeepsValid | src/pages/Onboarding.jsx:329-337 | with Back offered only after step 0, Continue disabled while loading and absent on the success screen, and remove offered only while more than one product is left, every offered event keeps the step within 0..5 and the catalogue non-empty |
| OnboardingWizard.AdmissibleRunKeepsValid | src/pages/Onboarding.jsx:253 | no sequence of offered events drives the step out of 0..5 or empties the catalogue |
| InboxController.ConversationQuery | src/pages/Dashboard.jsx:39-40 | the query always carries the business id, and carries `status` exactly when the tab is not "all"; the status is then the tab's key |
| InboxController.QueryListsExactlyFilter | src/pages/Dashboard.jsx:17-22 | under the endpoint's contract, a tab lists exactly the conversations with its status, and "All" lists every conversation |
| InboxController.Refresh | src/pages/Dashboard.jsx:56 | each polling tick re-reads the list for the current tab and the stats of the current business |
| InboxController.Mount | src/pages/Dashboard.jsx:25-32 | the dashboard starts with empty caches, zero stats, the "All" tab, an empty reply and no spinner, and at once fetches the unfiltered list and the stats |
| InboxController.OnConversations | src/pages/Dashboard.jsx:41-43 | a fetched list replaces the cached one wholesale; a failed fetch changes nothing |
| InboxController.ConversationsIdempotent | src/pages/Dashboard.jsx:42 | applying the same server list twice gives the same state as applying it once |
| InboxController.OnStats | src/pages/Dashboard.jsx:48-50 | fetched stats replace the cached counts; a failed fetch changes nothing |
| InboxController.Select | src/pages/Dashboard.jsx:61-68 | clicking a conversation selects it, starts the spinner and requests its messages; nothing else changes, so the old messages stay until the reply arrives |
| InboxController.OnMessages | src/pages/Dashboard.jsx:64-67 | fetched messages replace the old ones; a failure keeps the old ones; the spinner stops in both cases |
| InboxController.SetFilter | src/pages/Dashboard.jsx:53-58 | choosing another tab changes only the tab and re-fetches the list under the new tab's query, plus the stats; re-clicking the active tab changes nothing and issues nothing |
| InboxController.EditReply | src/pages/Dashboard.jsx:253 | typing sets the draft to the typed text and changes nothing else |
| InboxController.SendDisabled | src/pages/Dashboard.jsx:261 | the send button is disabled exactly while a reply is in flight or the draft is nothing but whitespace |
| InboxController.BeginSend | src/pages/Dashboard.jsx:76-80 | a blank reply, or no selection, does nothing; otherwise the trimmed, non-empty text is posted to the selected conversation and `sending` is set |
| InboxController.FinishSend | src/pages/Dashboard.jsx:79-86 | only the draft, the messages and the sending flag change; the draft is cleared only when the post succeeded; the messages are replaced and the list refreshed only when the re-fetch succeeded as well; `sending` is false after every attempt |
| InboxController.FailedSendKeepsDraft | src/pages/Dashboard.jsx:79-86 | after a failed send the same draft is still there and the button is enabled again |
| InboxController.EnabledSendPostsTrimmedReply | src/pages/Dashboard.jsx:261 | an enabled send button posts exactly one reply, the trimmed draft, to the selected conversation |
| InboxController.KeyDownAsWritten | src/pages/Dashboard.jsx:105-110 | Enter without Shift runs the send handler and any other key does nothing, whatever the sending flag |
| InboxController.KeyDownAsWrittenPostsTwice | src/pages/Dashboard.jsx:76-80 | a concrete state where a reply is still being posted and pressing Enter posts it again |
| InboxController.KeyDown | src/pages/Dashboard.jsx:105-110 | the corrected handler (see "## Findings"): Enter without Shift sends only when no reply is being posted; otherwise nothing happens |
| InboxController.Step | src/pages/Dashboard.jsx:36-110 | one inbox event, with key presses going to the corrected `KeyDown`: a key press while a reply is in flight changes nothing, and only the send button and Enter can post a reply |
| InboxController.OneReplyInFlight | src/pages/Dashboard.jsx:261 | with the corrected handler, while a reply is being posted no offered user action posts another; the code as written does not keep this (see "## Findings") |
| InboxController.ResolvedLockout | src/pages/Dashboard.jsx:248-268 | while a resolved conversation is selected, no offered user action posts a reply |
| InboxController.Marked | src/pages/Dashboard.jsx:92 | the local copy has the new status and AI handling off; identity, customer and last-message fields are unchanged |
| InboxController.BeginTakeover | src/pages/Dashboard.jsx:89-91 | without a selection nothing is posted; otherwise the selected conversation's take-over is posted |
| InboxController.BeginResolve | src/pages/Dashboard.jsx:97-99 | without a selection nothing is posted; otherwise the selected conversation's resolution is posted |
| InboxController.FinishMark | src/pages/Dashboard.jsx:89-103 | after a successful post, only the selection changes, to its marked copy; the list is refreshed and the selection's messages re-loaded; a rejected post or no selection changes nothing and issues nothing |
| InboxController.FinishTakeover | src/pages/Dashboard.jsx:91-94 | a successful take-over leaves the selection at `needs_human` with AI handling off; a rejected one changes nothing |
| InboxController.FinishResolve | src/pages/Dashboard.jsx:99-102 | a successful resolve leaves the selection `resolved` with AI handling off; a rejected one changes nothing |
| InboxController.TakeoverShown | src/pages/Dashboard.jsx:225 | "Take Over" appears exactly when the AI handles the conversation and "Resolve" is shown, that is, for an unresolved conversation the AI handles |
| InboxController.ResolveShown | src/pages/Dashboard.jsx:230 | "Resolve" appears exactly when the resolved banner does not |
| InboxController.ReplyBoxShown | src/pages/Dashboard.jsx:248 | the reply box appears exactly when "Resolve" does |
| InboxController.ResolvedBannerShown | src/pages/Dashboard.jsx:269 | the banner appears exactly when the status is "resolved", and then the badge reads "Resolved" in grey |
| InboxController.AffordancesConsistent | src/pages/Dashboard.jsx:225-234 | the chat pane shows either the reply box or the resolved banner, never both; "Resolve" shows exactly when the reply box does; "Take Over" only ever shows alongside them |
| InboxController.ActionsWithdrawAffordances | src/pages/Dashboard.jsx:89-103 | after a take-over, "Take Over" is gone and "Resolve" and the reply box remain; after a resolve only the banner is left; neither turns AI handling back on |
| InboxController.StatusPalette | src/pages/Dashboard.jsx:11-15 | "open" is green and "needs_human" red; a status naming a member of `Object.prototype` ("constructor", "toString", "__proto__", …) finds that member, skips the fallback and is drawn without colours; every other status falls back to the resolved grey |
| InboxController.UnknownStatusLooksResolved | src/pages/Dashboard.jsx:119 | a status the colour table does not hold, and no object inherits, is drawn exactly like "resolved" |
| InboxController.StatusLabel | src/pages/Dashboard.jsx:119-123 | "needs_human" reads "Urgent"; any other status reads as itself with its first letter upper-cased |
| InboxController.FilterLabelsMatchBadges | src/pages/Dashboard.jsx:17-22 | each status tab carries the same caption as that status's badge |
| InboxController.RoleLabel | src/pages/Dashboard.jsx:296-308 | "user" is captioned "Customer" and "assistant" "AI"; every other role, unknown ones included, is "You" |
| InboxController.RoleSide | src/pages/Dashboard.jsx:305 | only customer messages sit on the left |
| InboxController.RoleAccent | src/pages/Dashboard.jsx:300-304 | each of the three known roles gets its own bubble accent, and any other role gets none |
| InboxController.BusinessSideMessages | src/pages/Dashboard.jsx:308-312 | every non-customer message sits on the right and is never captioned "Customer"; agent-styled bubbles read "You" |
| InboxController.DisplayName | src/pages/Dashboard.jsx:179 | a non-empty customer name is shown; an absent or empty one falls back to the number |
| InboxController.Preview | src/pages/Dashboard.jsx:183 | the preview is never empty: a non-empty last message is shown as is, and an absent or empty one gives the dash |

## Findings

| source | as written | input that shows it | evidently intended | confidence | as-written member | corrected member |
|---|---|---|---|---|---|---|
| src/pages/Dashboard.jsx:76-110 | `handleKeyDown` calls `handleSend` on Enter, and `handleSend` never checks `sending`; only the send button is disabled while a reply is in flight | selected conversation, draft "hi", `sending` true (first post pending), Enter pressed: a second `POST …/reply` with "hi" | one reply in flight at a time, as the send button's `disabled` condition, which includes `sending`, shows | medium, not executed | InboxController.KeyDownAsWrittenPostsTwice | InboxController.OneReplyInFlight |

In the table above, the as-written keyboard handler is
`InboxController.KeyDownAsWritten`. The corrected handler is
`InboxController.KeyDown`, and the inbox's `Step` uses the corrected one.

## Left out

- `src/pages/Login.jsx` is not part of this model. It wraps the external `signIn`, and its only routing edge is `AppShell.OnNeedSignup`.
- The auth context, axios and the backend are left out. Only their outcomes enter the model, as event parameters (`Auth`, `Lookup`, `SignupResult`, `RegisterResult`, `SendResult`, `PostResult`, the `Option` results of reads).
- The 10-second polling timer, its reset and its teardown are left out. `InboxController.Refresh` states what one tick requests.
- Interleaving of asynchronous continuations is not modelled. Examples: a lookup that settles after sign-out, a message fetch that lands after the selection changed, a take-over whose captured selection is stale, and overlapping polls. Every reply is applied to the state it meets.
- `InboxController.FinishSend` folds the reply post and the message re-fetch that follows it into one outcome. The short window between clearing the draft and receiving the messages is not a state of the model.
- `InboxController.Select` issues the message fetch on every click. React skips the effect when the very same object is selected again, and that reference-identity check is not modelled.
- `Text.Capitalize`: `Text.UpperChar` upper-cases only ASCII a–z. JavaScript's full Unicode case mapping (for example "ß" to "SS") and its UTF-16 code-unit indexing are not modelled. The statuses the backend sends are ASCII.
- `InboxController.StatusLabel` does not model a `null` status, on which `charAt` would throw.
- `OnboardingWizard.SubmitError` models `detail` as an optional string. A non-string `detail`, such as a list of validation errors, is not modelled.
- `OnboardingWizard.OnRegister` does not model `onComplete?.(…)` throwing inside the `try`. The shell always passes the callback.
- `AppShell.OnLookup` and `AppShell.OnOnboardingComplete` take the returned id as a string. A response without an id (`undefined`) is not modelled.
- Presentation is left out: styles and colours (beyond the badge palette family), `timeAgo` (date-fns and the clock), auto-scroll, focus and blur borders, the password visibility toggle, the progress dots, the loading screen's spinner, and the keyframe injection.
- Each form input of the wizard is one `FormEdited` event that replaces the whole `Form` record. The individual setters are not modelled separately.

=== FILE: app_shell.dfy ===
/** The application shell: the state machine that decides which top-level
    screen is shown (loading spinner, login, onboarding wizard or dashboard)
    from the auth provider's state and the result of the business lookup.

    Each handler of the shell is one pure transition. Whatever an
    asynchronous call returns arrives later as its own event: the business
    lookup as `LookupSettled`, the completed sign-out as `SignedOut`. */
module AppShell {
  import opened Common

  /** The `view` state variable. */
  datatype View = Checking | Login | Onboarding | Dashboard

  /** The shell's whole local state: `view` and `businessId`. */
  datatype Shell = Shell(view: View, businessId: Option<BusinessId>)

  /** What the auth provider exposes: whether the session check is still
      running, and the signed-in user, if any. */
  datatype Auth = Auth(loading: bool, user: Option<UserId>)

  /** Outcome of `GET /api/businesses/me?user_id=...`. A failure carries the
      HTTP status when a response came back (404 when the user has no
      business yet) and `None` on a transport error. */
  datatype Lookup = Found(id: BusinessId) | LookupFailed(status: Option<int>)

  /** The screen the shell renders. */
  datatype Screen =
    | LoadingScreen
    | LoginScreen
    | OnboardingScreen
    | DashboardScreen(businessId: Option<BusinessId>)

  /** Everything that can move the shell. */
  datatype Event =
    | AuthChanged(auth: Auth)          // the effect re-runs on a new `user`/`loading`
    | LookupSettled(result: Lookup)    // the business lookup it started returned
    | SignedOut                        // `handleSignOut` after `signOut()` resolved
    | OnboardingCompleted(id: BusinessId)
    | SignupRequested                  // Login's `onNeedSignup`

  /** The only invariant the shell needs: the dashboard is only ever shown
      with a business id to hand. */
  predicate Consistent(s: Shell)
  {
    s.view == Dashboard ==> s.businessId.Some?
  }

  /** The state when the shell mounts. */
  function Init(): (s: Shell)
    ensures s.view == Checking && s.businessId == None
    ensures Render(s) == LoadingScreen
    ensures Consistent(s)
  {
    Shell(Checking, None)
  }

  /** The effect that runs whenever the auth state changes. It returns the new
      state and the user whose business is to be looked up, if any. */
  function OnAuthChanged(s: Shell, auth: Auth): (r: (Shell, Option<UserId>))
    ensures auth.loading ==> r == (s, None)
    ensures !auth.loading && auth.user.None? ==> r.0.view == Login && r.1 == None
    ensures !auth.loading && auth.user.Some? ==> r.0.view == Checking && r.1 == auth.user
    ensures r.0.businessId == s.businessId
  {
    if auth.loading then (s, None)
    else if auth.user.None? then (s.(view := Login), None)
    else (s.(view := Checking), Some(auth.user.value))
  }

  /** The continuation of the business lookup. Any failure, whatever its
      status, shows the onboarding wizard and keeps the business id. */
  function OnLookup(s: Shell, result: Lookup): (r: Shell)
    ensures result.Found? ==> r == Shell(Dashboard, Some(result.id))
    ensures result.LookupFailed? ==> r.view == Onboarding && r.businessId == s.businessId
  {
    match result
    case Found(id) => Shell(Dashboard, Some(id))
    case LookupFailed(status) =>
      if status == Some(404) then s.(view := Onboarding)
      else s.(view := Onboarding)   // transport or other errors: still onboarding
  }

  /** `handleSignOut`, after `signOut()` has resolved. */
  function OnSignedOut(s: Shell): (r: Shell)
    ensures r.view == Login && r.businessId == None
  {
    Shell(Login, None)
  }

  /** `handleOnboardingComplete(id)`. */
  function OnOnboardingComplete(s: Shell, id: BusinessId): (r: Shell)
    ensures r.view == Dashboard && r.businessId == Some(id)
  {
    Shell(Dashboard, Some(id))
  }

  /** Login's `onNeedSignup` callback. */
  function OnNeedSignup(s: Shell): (r: Shell)
    ensures r.view == Onboarding && r.businessId == s.businessId
  {
    s.(view := Onboarding)
  }

  /** The view a screen belongs to: the inverse of `Render`. */
  function ScreenView(screen: Screen): View
  {
    match screen
    case LoadingScreen => Checking
    case LoginScreen => Login
    case OnboardingScreen => Onboarding
    case DashboardScreen(_) => Dashboard
  }

  /** The view dispatch at the end of the shell component. */
  function Render(s: Shell): (screen: Screen)
    ensures ScreenView(screen) == s.view
    ensures screen.DashboardScreen? <==> s.view == Dashboard
    ensures screen.DashboardScreen? ==> screen.businessId == s.businessId
  {
    match s.view
    case Checking => LoadingScreen
    case Login => LoginScreen
    case Onboarding => OnboardingScreen
    case Dashboard => DashboardScreen(s.businessId)
  }

  /** One event; the lookup request an auth change issues is dropped here,
      since its outcome arrives as a later `LookupSettled`. */
  function Step(s: Shell, e: Event): (r: Shell)
    ensures Consistent(s) ==> Consistent(r)
  {
    match e
    case AuthChanged(auth) => OnAuthChanged(s, auth).0
    case LookupSettled(result) => OnLookup(s, result)
    case SignedOut => OnSignedOut(s)
    case OnboardingCompleted(id) => OnOnboardingComplete(s, id)
    case SignupRequested => OnNeedSignup(s)
  }

  /** A sequence of events, applied in order. */
  function Run(s: Shell, events: seq<Event>): Shell
    decreases |events|
  {
    if events == [] then s else Run(Step(s, events[0]), events[1..])
  }

  /** Whatever happens, the dashboard is never shown without a business id. */
  lemma {:induction false} RunKeepsConsistent(s: Shell, events: seq<Event>)
    requires Consistent(s)
    ensures Consistent(Run(s, events))
    decreases |events|
  {
    if events != [] {
      RunKeepsConsistent(Step(s, events[0]), events[1..]);
    }
  }

  /** Every reachable state renders the dashboard only with a business id. */
  lemma ReachableDashboardHasBusiness(events: seq<Event>)
    ensures var s := Run(Init(), events);
            Render(s).DashboardScreen? ==> Render(s).businessId.Some?
  {
    RunKeepsConsistent(Init(), events);
  }

  /** While the session check is running nothing moves, however many times
      the effect fires. */
  lemma {:induction false} LoadingIsInert(s: Shell, events: seq<Event>)
    requires forall i :: 0 <= i < |events| ==> events[i].AuthChanged? && events[i].auth.loading
    ensures Run(s, events) == s
    decreases |events|
  {
    if events != [] {
      LoadingIsInert(s, events[1..]);
    }
  }

  /** A settled session without a user always lands on the login screen,
      whatever was shown before. */
  lemma NoUserShowsLogin(s: Shell)
    ensures Render(Step(s, AuthChanged(Auth(false, None)))) == LoginScreen
  {
  }

  /** Sign-in followed by a successful lookup opens the dashboard of the
      business found; a failed lookup, of any kind, opens onboarding. */
  lemma SignInFlow(s: Shell, user: UserId, result: Lookup)
    ensures var checking := Step(s, AuthChanged(Auth(false, Some(user))));
            && Render(checking) == LoadingScreen
            && (result.Found? ==>
                  Render(Step(checking, LookupSettled(result))) == DashboardScreen(Some(result.id)))
            && (result.LookupFailed? ==>
                  Step(checking, LookupSettled(result)) == s.(view := Onboarding))
  {
  }

  /** A 404 and any other lookup failure have the same effect. */
  lemma LookupFailureKindIrrelevant(s: Shell, a: Option<int>, b: Option<int>)
    ensures OnLookup(s, LookupFailed(a)) == OnLookup(s, LookupFailed(b))
  {
  }

  /** Two shells with different views render different screens. */
  lemma RenderSeparatesViews(s: Shell, t: Shell)
    requires s.view != t.view
    ensures Render(s) != Render(t)
  {
    assert ScreenView(Render(s)) != ScreenView(Render(t));
  }
}

=== FILE: common.dfy ===
/** Types shared by the three state machines of the dashboard. */
module Common {

  /** A value that may be absent: JavaScript's `null`/`undefined`. */
  datatype Option<+T> = None | Some(value: T)

  /** Identifier of an authenticated user, as the auth provider reports it. */
  type UserId = string

  /** Identifier of a business, as returned by the backend. */
  type BusinessId = string

  /** Identifier of a conversation, as returned by the backend. */
  type ConversationId = string
}

=== FILE: inbox.dfy ===
/** The dashboard's inbox controller: the conversation list and its status
    filter, the stats bar, the selected conversation with its messages, the
    reply box, and the take-over and resolve actions.

    Every handler is a pure transition that returns the HTTP requests it
    issues. A request's reply arrives as a later event. A user action whose
    handler awaits a post (send, take over, resolve) is split in two: a
    `Begin` half that issues the post, and a `Finish` half that receives
    its outcome. */
module InboxController {
  import opened Common
  import Text

  // ---------------------------------------------------------------- data

  /** A conversation as the backend lists it. `status` is free text: the
      backend uses "open", "needs_human" and "resolved", and the view copes
      with any other value. */
  datatype Conversation = Conversation(
    id: ConversationId,
    customerName: Option<string>,
    customerNumber: string,
    status: string,
    aiHandling: bool,
    lastMessage: Option<string>,
    lastMessageAt: string)

  /** A message of a conversation; `role` is "user", "assistant" or
      "human_agent". */
  datatype Message = Message(id: string, role: string, content: string, createdAt: string)

  /** Counts shown in the stats bar. */
  datatype Stats = Stats(total: int, open: int, needsHuman: int, resolved: int)

  /** The four filter tabs. */
  datatype Filter = All | OpenOnly | UrgentOnly | ResolvedOnly

  const Resolved: string := "resolved"
  const NeedsHuman: string := "needs_human"

  /** The key a filter tab sends to the backend. */
  function FilterKey(f: Filter): string
  {
    match f
    case All => "all"
    case OpenOnly => "open"
    case UrgentOnly => NeedsHuman
    case ResolvedOnly => Resolved
  }

  /** The caption of a filter tab. */
  function FilterLabel(f: Filter): string
  {
    match f
    case All => "All"
    case OpenOnly => "Open"
    case UrgentOnly => "Urgent"
    case ResolvedOnly => "Resolved"
  }

  /** Query parameters of `GET /api/conversations`. */
  datatype Query = Query(businessId: Option<BusinessId>, status: Option<string>)

  /** An HTTP request issued by the controller. */
  datatype Request =
    | ListConversations(query: Query)
    | GetStats(businessId: Option<BusinessId>)
    | ListMessages(conversation: ConversationId)
    | PostReply(conversation: ConversationId, text: string)
    | PostTakeover(conversation: ConversationId)
    | PostResolve(conversation: ConversationId)

  /** The controller's local state. */
  datatype Inbox = Inbox(
    businessId: Option<BusinessId>,
    conversations: seq<Conversation>,
    selected: Option<Conversation>,
    messages: seq<Message>,
    stats: Stats,
    filter: Filter,
    reply: string,
    sending: bool,
    loadingMessages: bool)

  /** A new state together with the requests it issues, in order. */
  datatype Outcome = Outcome(inbox: Inbox, requests: seq<Request>)

  /** Outcome of a write (`takeover`, `resolve`). */
  datatype PostResult = Posted | PostRejected

  /** Outcome of the reply post and, when it succeeded, of the message
      re-fetch that follows it. */
  datatype SendResult = ReplyRejected | ReplyPosted(refetched: Option<seq<Message>>)

  // ---------------------------------------------------------------- queries

  /** The parameters `fetchConversations` sends: always the business, and a
      status exactly when a specific tab is chosen. */
  function ConversationQuery(businessId: Option<BusinessId>, f: Filter): (q: Query)
    ensures q.businessId == businessId
    ensures q.status.Some? <==> f != All
    ensures q.status.Some? ==> q.status.value == FilterKey(f) && q.status.value != "all"
  {
    if f != All then Query(businessId, Some(FilterKey(f))) else Query(businessId, None)
  }

  /** Whether the backend lists conversation `c` for query `q`, per the
      endpoint's contract: an absent status lists everything. */
  predicate Lists(q: Query, c: Conversation)
  {
    q.status.None? || q.status.value == c.status
  }

  /** A filter tab lists exactly the conversations in its status; "All"
      lists every conversation. */
  lemma QueryListsExactlyFilter(businessId: Option<BusinessId>, f: Filter, c: Conversation)
    ensures Lists(ConversationQuery(businessId, f), c) <==> (f == All || c.status == FilterKey(f))
  {
  }

  /** The two reads repeated by the polling timer: conversations and stats. */
  function Refresh(w: Inbox): (rs: seq<Request>)
    ensures |rs| == 2
    ensures rs[0] == ListConversations(ConversationQuery(w.businessId, w.filter))
    ensures rs[1] == GetStats(w.businessId)
  {
    [ListConversations(ConversationQuery(w.businessId, w.filter)), GetStats(w.businessId)]
  }

  /** The dashboard mounting for a business: empty caches, the "All" tab, and
      an immediate refresh. */
  function Mount(businessId: Option<BusinessId>): (o: Outcome)
    ensures o.inbox.businessId == businessId && o.inbox.filter == All
    ensures o.inbox.conversations == [] && o.inbox.messages == [] && o.inbox.selected == None
    ensures o.inbox.stats == Stats(0, 0, 0, 0)
    ensures o.inbox.reply == [] && !o.inbox.sending && !o.inbox.loadingMessages
    ensures o.requests == Refresh(o.inbox)
    ensures o.requests[0].query.status == None
  {
    var w := Inbox(businessId, [], None, [], Stats(0, 0, 0, 0), All, "", false, false);
    Outcome(w, Refresh(w))
  }

  // ---------------------------------------------------------------- reads

  /** Everything but the cached conversation list, stats and messages, and
      the message spinner, is equal. */
  predicate SameControls(a: Inbox, b: Inbox)
  {
    && a.businessId == b.businessId && a.selected == b.selected && a.filter == b.filter
    && a.reply == b.reply && a.sending == b.sending
  }

  /** Reply to the conversation list: a success replaces the list wholesale,
      a failure is swallowed and keeps the stale list. */
  function OnConversations(w: Inbox, result: Option<seq<Conversation>>): (r: Inbox)
    ensures result.Some? ==> r.conversations == result.value
    ensures result.None? ==> r == w
    ensures SameControls(w, r) && r.stats == w.stats && r.messages == w.messages
    ensures r.loadingMessages == w.loadingMessages
  {
    match result
    case Some(list) => w.(conversations := list)
    case None => w
  }

  /** Applying the same list twice is applying it once. */
  lemma ConversationsIdempotent(w: Inbox, list: seq<Conversation>)
    ensures OnConversations(OnConversations(w, Some(list)), Some(list)) == OnConversations(w, Some(list))
  {
  }

  /** Reply to the stats request; a failure keeps the old counts. */
  function OnStats(w: Inbox, result: Option<Stats>): (r: Inbox)
    ensures result.Some? ==> r.stats == result.value
    ensures result.None? ==> r == w
    ensures SameControls(w, r) && r.conversations == w.conversations && r.messages == w.messages
    ensures r.loadingMessages == w.loadingMessages
  {
    match result
    case Some(s) => w.(stats := s)
    case None => w
  }

  /** Clicking a conversation: it becomes the selection, and the selection
      effect starts loading its messages. The old messages stay on screen
      until the reply arrives. */
  function Select(w: Inbox, c: Conversation): (o: Outcome)
    ensures o.inbox.selected == Some(c) && o.inbox.loadingMessages
    ensures o.inbox.messages == w.messages && o.inbox.conversations == w.conversations
    ensures o.inbox.reply == w.reply && o.inbox.filter == w.filter
    ensures o.requests == [ListMessages(c.id)]
    ensures o.inbox.(selected := w.selected, loadingMessages := w.loadingMessages) == w
  {
    Outcome(w.(selected := Some(c), loadingMessages := true), [ListMessages(c.id)])
  }

  /** Reply to the message request: a success replaces the messages, a
      failure keeps them; the spinner stops either way. */
  function OnMessages(w: Inbox, result: Option<seq<Message>>): (r: Inbox)
    ensures !r.loadingMessages
    ensures result.Some? ==> r.messages == result.value
    ensures result.None? ==> r.messages == w.messages
    ensures SameControls(w, r) && r.conversations == w.conversations && r.stats == w.stats
  {
    match result
    case Some(list) => w.(messages := list, loadingMessages := false)
    case None => w.(loadingMessages := false)
  }

  /** Clicking a filter tab. Choosing another tab re-runs the polling effect,
      so both the list and the stats are fetched again; clicking the active
      tab changes nothing. */
  function SetFilter(w: Inbox, f: Filter): (o: Outcome)
    ensures o.inbox.filter == f
    ensures f == w.filter ==> o == Outcome(w, [])
    ensures f != w.filter ==>
              o.requests == Refresh(o.inbox)
              && o.requests[0] == ListConversations(ConversationQuery(w.businessId, f))
    ensures f != w.filter ==> o.inbox.(filter := w.filter) == w
    ensures o.inbox.conversations == w.conversations && o.inbox.selected == w.selected
  {
    if f == w.filter then Outcome(w, [])
    else
      var v := w.(filter := f);
      Outcome(v, Refresh(v))
  }

  // ---------------------------------------------------------------- reply

  /** Typing in the reply box. */
  function EditReply(w: Inbox, text: string): (r: Inbox)
    ensures r.reply == text && r.selected == w.selected && r.sending == w.sending
    ensures r.(reply := w.reply) == w
  {
    w.(reply := text)
  }

  /** The send button's `disabled` attribute: a reply is in flight, or the
      draft is nothing but whitespace. */
  predicate SendDisabled(w: Inbox): (disabled: bool)
    ensures disabled <==> w.sending || Text.AllSpace(w.reply)
  {
    Text.BlankIffAllSpace(w.reply);
    w.sending || Text.IsBlank(w.reply)
  }

  /** `handleSend` up to its first `await`: nothing happens without a
      non-blank reply and a selection; otherwise the trimmed reply is posted
      to the selected conversation. It does not look at `sending`. */
  function BeginSend(w: Inbox): (o: Outcome)
    ensures Text.IsBlank(w.reply) || w.selected.None? ==> o == Outcome(w, [])
    ensures !Text.IsBlank(w.reply) && w.selected.Some? ==>
              && o.inbox == w.(sending := true)
              && o.requests == [PostReply(w.selected.value.id, Text.Trim(w.reply))]
              && o.requests[0].text != []
  {
    if Text.IsBlank(w.reply) || w.selected.None? then Outcome(w, [])
    else Outcome(w.(sending := true), [PostReply(w.selected.value.id, Text.Trim(w.reply))])
  }

  /** The rest of `handleSend`. The reply box is cleared only once the post
      succeeded; the fetched messages replace the old ones and the list is
      refreshed only when the re-fetch succeeded too. `sending` is cleared
      after every attempt. */
  function FinishSend(w: Inbox, result: SendResult): (o: Outcome)
    ensures !o.inbox.sending
    ensures o.inbox.reply == [] <==> result.ReplyPosted? || w.reply == []
    ensures result.ReplyRejected? ==> o == Outcome(w.(sending := false), [])
    ensures result.ReplyPosted? && result.refetched.None? ==>
              o.inbox.messages == w.messages && o.requests == []
    ensures result.ReplyPosted? && result.refetched.Some? ==>
              && o.inbox.messages == result.refetched.value
              && o.requests == [ListConversations(ConversationQuery(w.businessId, w.filter))]
    ensures o.inbox.selected == w.selected && o.inbox.filter == w.filter
    ensures o.inbox.conversations == w.conversations
    ensures o.inbox.(reply := w.reply, messages := w.messages, sending := w.sending) == w
  {
    match result
    case ReplyRejected => Outcome(w.(sending := false), [])
    case ReplyPosted(None) => Outcome(w.(reply := "", sending := false), [])
    case ReplyPosted(Some(list)) =>
      Outcome(w.(reply := "", messages := list, sending := false),
              [ListConversations(ConversationQuery(w.businessId, w.filter))])
  }

  /** `handleKeyDown` as written: Enter without Shift calls `handleSend`,
      which sends even while an earlier reply is still being posted. */
  function KeyDownAsWritten(w: Inbox, key: string, shift: bool): (o: Outcome)
    ensures key == "Enter" && !shift ==>
              o.inbox == BeginSend(w).inbox && o.requests == BeginSend(w).requests
    ensures key != "Enter" || shift ==> o.inbox == w && o.requests == []
  {
    if key == "Enter" && !shift then BeginSend(w) else Outcome(w, [])
  }

  /** `handleKeyDown` with the guard the disabled send button already applies:
      Enter sends only when no reply is being posted. */
  function KeyDown(w: Inbox, key: string, shift: bool): (o: Outcome)
    ensures w.sending ==> o.inbox == w && o.requests == []
    ensures key == "Enter" && !shift && !w.sending ==>
              o.inbox == BeginSend(w).inbox && o.requests == BeginSend(w).requests
    ensures key != "Enter" || shift ==> o.inbox == w && o.requests == []
  {
    if key == "Enter" && !shift && !w.sending then BeginSend(w) else Outcome(w, [])
  }

  /** A state in which the keyboard path of the code as written posts a
      second reply while the first is still in flight. */
  lemma KeyDownAsWrittenPostsTwice()
    ensures var c := Conversation("c1", None, "+27810000000", "open", true, None, "");
            var w := Inbox(Some("b1"), [c], Some(c), [], Stats(1, 1, 0, 0), All, "hi", true, false);
            && w.sending
            && KeyDownAsWritten(w, "Enter", false).requests == [PostReply("c1", "hi")]
  {
    var c := Conversation("c1", None, "+27810000000", "open", true, None, "");
    var w := Inbox(Some("b1"), [c], Some(c), [], Stats(1, 1, 0, 0), All, "hi", true, false);
    assert Text.TrimStart("hi") == "hi" by { assert !Text.IsSpace('h'); }
    assert Text.TrimEnd("hi") == "hi" by { assert !Text.IsSpace('i'); }
    assert !Text.IsBlank(w.reply);
    assert BeginSend(w).requests == [PostReply("c1", "hi")];
  }

  // ---------------------------------------------------------------- actions

  /** `{ ...c, ai_handling: false, status }`: the local copy after a
      successful take-over or resolve. */
  function Marked(c: Conversation, status: string): (d: Conversation)
    ensures d.status == status && !d.aiHandling
    ensures d.id == c.id && d.customerName == c.customerName
    ensures d.customerNumber == c.customerNumber
    ensures d.lastMessage == c.lastMessage && d.lastMessageAt == c.lastMessageAt
  {
    c.(aiHandling := false, status := status)
  }

  /** `handleTakeover` up to its `await`: post the take-over of the selection. */
  function BeginTakeover(w: Inbox): (rs: seq<Request>)
    ensures w.selected.None? ==> rs == []
    ensures w.selected.Some? ==> rs == [PostTakeover(w.selected.value.id)]
  {
    if w.selected.None? then [] else [PostTakeover(w.selected.value.id)]
  }

  /** `handleResolve` up to its `await`: post the resolution of the selection. */
  function BeginResolve(w: Inbox): (rs: seq<Request>)
    ensures w.selected.None? ==> rs == []
    ensures w.selected.Some? ==> rs == [PostResolve(w.selected.value.id)]
  {
    if w.selected.None? then [] else [PostResolve(w.selected.value.id)]
  }

  /** Only the selected conversation may differ between `a` and `b`. */
  predicate SameExceptSelection(a: Inbox, b: Inbox)
  {
    && a.businessId == b.businessId && a.conversations == b.conversations
    && a.messages == b.messages && a.stats == b.stats && a.filter == b.filter
    && a.reply == b.reply && a.sending == b.sending
  }

  /** The shared tail of take-over and resolve: after a successful post the
      selection is replaced by its marked copy, the list is refreshed, and
      because the selection changed the selection effect re-loads its
      messages. A rejected post throws before any of that, so nothing
      changes. */
  function FinishMark(w: Inbox, result: PostResult, status: string): (o: Outcome)
    ensures result.PostRejected? || w.selected.None? ==> o == Outcome(w, [])
    ensures result.Posted? && w.selected.Some? ==>
              && SameExceptSelection(w, o.inbox)
              && o.inbox.selected == Some(Marked(w.selected.value, status))
              && o.inbox.loadingMessages
              && o.requests == [ListConversations(ConversationQuery(w.businessId, w.filter)),
                                ListMessages(w.selected.value.id)]
  {
    if result.PostRejected? || w.selected.None? then Outcome(w, [])
    else
      var c := Marked(w.selected.value, status);
      Outcome(w.(selected := Some(c), loadingMessages := true),
              [ListConversations(ConversationQuery(w.businessId, w.filter)), ListMessages(c.id)])
  }

  /** The continuation of `handleTakeover`: the selection is marked as
      needing a human, with AI handling off. */
  function FinishTakeover(w: Inbox, result: PostResult): (o: Outcome)
    ensures result.Posted? && w.selected.Some? ==>
              o.inbox.selected.Some?
              && o.inbox.selected.value.status == NeedsHuman && !o.inbox.selected.value.aiHandling
    ensures result.PostRejected? ==> o.inbox == w
  {
    FinishMark(w, result, NeedsHuman)
  }

  /** The continuation of `handleResolve`: the selection is marked resolved,
      with AI handling off. */
  function FinishResolve(w: Inbox, result: PostResult): (o: Outcome)
    ensures result.Posted? && w.selected.Some? ==>
              o.inbox.selected.Some?
              && o.inbox.selected.value.status == Resolved && !o.inbox.selected.value.aiHandling
    ensures result.PostRejected? ==> o.inbox == w
  {
    FinishMark(w, result, Resolved)
  }

  // ---------------------------------------------------------------- affordances

  /** "Take Over" is shown for an open conversation the AI is handling. */
  function TakeoverShown(c: Conversation): (shown: bool)
    ensures shown <==> c.aiHandling && ResolveShown(c)
  {
    c.status != Resolved && c.aiHandling
  }

  /** "Resolve" is shown for any conversation not yet resolved. */
  function ResolveShown(c: Conversation): (shown: bool)
    ensures shown <==> !ResolvedBannerShown(c)
  {
    c.status != Resolved
  }

  /** The reply box is shown for any conversation not yet resolved. */
  function ReplyBoxShown(c: Conversation): (shown: bool)
    ensures shown <==> ResolveShown(c)
  {
    c.status != Resolved
  }

  /** The "Conversation resolved" banner: shown exactly for the status
      "resolved", whose badge reads "Resolved" in grey. */
  function ResolvedBannerShown(c: Conversation): (shown: bool)
    ensures shown <==> c.status == Resolved
    ensures shown ==> StatusLabel(c.status) == "Resolved" && StatusPalette(c.status) == Gray
  {
    c.status == Resolved
  }

  /** The chat pane shows either the reply box or the resolved banner, never
      both; take-over is only ever offered alongside resolve. */
  lemma AffordancesConsistent(c: Conversation)
    ensures ReplyBoxShown(c) != ResolvedBannerShown(c)
    ensures TakeoverShown(c) ==> ResolveShown(c) && ReplyBoxShown(c)
    ensures ResolveShown(c) <==> ReplyBoxShown(c)
  {
  }

  /** After a successful take-over the button disappears while resolve and
      the reply box remain; after a successful resolve only the banner is
      left. Neither ever turns AI handling back on. */
  lemma ActionsWithdrawAffordances(w: Inbox)
    requires w.selected.Some?
    ensures var t := FinishTakeover(w, Posted).inbox.selected.value;
            !TakeoverShown(t) && ResolveShown(t) && ReplyBoxShown(t) && !t.aiHandling
    ensures var r := FinishResolve(w, Posted).inbox.selected.value;
            !TakeoverShown(r) && !ResolveShown(r) && !ReplyBoxShown(r)
            && ResolvedBannerShown(r) && !r.aiHandling
  {
  }

  // ---------------------------------------------------------------- labels

  /** Colour family of a status badge; `Unstyled` is a badge whose colours
      are all `undefined`. */
  datatype Palette = Green | Red | Gray | Unstyled

  /** The keys every JavaScript object inherits from `Object.prototype`.
      Looking one of them up in the colour table finds a truthy function or
      object, not a colour entry. */
  const InheritedKeys: set<string> := {
    "constructor", "hasOwnProperty", "isPrototypeOf", "propertyIsEnumerable",
    "toLocaleString", "toString", "valueOf", "__proto__",
    "__defineGetter__", "__defineSetter__", "__lookupGetter__", "__lookupSetter__"}

  /** `STATUS_COLORS[status] || STATUS_COLORS.resolved`. The table's own
      keys give their colours, an inherited key skips the fallback, and any
      other status falls back to the resolved grey. */
  function StatusPalette(status: string): (p: Palette)
    ensures p == Green <==> status == "open"
    ensures p == Red <==> status == NeedsHuman
    ensures p == Unstyled <==> status in InheritedKeys
    ensures p == Gray <==> status != "open" && status != NeedsHuman && status !in InheritedKeys
  {
    if status == "open" then Green
    else if status == NeedsHuman then Red
    else if status == Resolved then Gray
    else if status in InheritedKeys then Unstyled
    else Gray
  }

  /** An unknown status that is not an inherited key is drawn like a
      resolved one. */
  lemma UnknownStatusLooksResolved(status: string)
    requires status != "open" && status != NeedsHuman && status !in InheritedKeys
    ensures StatusPalette(status) == StatusPalette(Resolved)
  {
  }

  /** The text of a status badge: "Urgent" for needs_human, otherwise the
      status with its first letter upper-cased. */
  function StatusLabel(status: string): (text: string)
    ensures status == NeedsHuman ==> text == "Urgent"
    ensures status != NeedsHuman ==> |text| == |status|
    ensures status != NeedsHuman && status != [] ==> text[1..] == status[1..]
    ensures status != NeedsHuman && status != [] ==> text[0] == Text.UpperChar(status[0])
  {
    if status == NeedsHuman then "Urgent" else Text.Capitalize(status)
  }

  /** A filter tab for a status carries that status's badge text, so tabs and
      badges agree. */
  lemma FilterLabelsMatchBadges(f: Filter)
    requires f != All
    ensures FilterLabel(f) == StatusLabel(FilterKey(f))
  {
    match f
    case OpenOnly =>
      assert Text.Capitalize("open") == "Open";
    case UrgentOnly =>
    case ResolvedOnly =>
      assert Text.Capitalize("resolved") == "Resolved";
  }

  /** Which side of the transcript a bubble sits on. */
  datatype Side = Left | Right

  /** The accent a bubble gets; roles outside the three known ones get none. */
  datatype Accent = CustomerAccent | AssistantAccent | AgentAccent | NoAccent

  /** The caption over a message bubble. */
  function RoleLabel(role: string): (text: string)
    ensures text == "Customer" <==> role == "user"
    ensures text == "AI" <==> role == "assistant"
    ensures text == "You" <==> role != "user" && role != "assistant"
  {
    if role == "user" then "Customer" else if role == "assistant" then "AI" else "You"
  }

  /** Customer messages sit on the left, all others on the right. */
  function RoleSide(role: string): (s: Side)
    ensures s == Left <==> role == "user"
  {
    if role == "user" then Left else Right
  }

  /** The bubble style chosen by role. */
  function RoleAccent(role: string): (a: Accent)
    ensures a == CustomerAccent <==> role == "user"
    ensures a == AssistantAccent <==> role == "assistant"
    ensures a == AgentAccent <==> role == "human_agent"
  {
    if role == "user" then CustomerAccent
    else if role == "assistant" then AssistantAccent
    else if role == "human_agent" then AgentAccent
    else NoAccent
  }

  /** Every message sent by the business side (AI or human) is captioned and
      placed as the business's, an unknown role included. */
  lemma BusinessSideMessages(role: string)
    requires role != "user"
    ensures RoleSide(role) == Right && RoleLabel(role) != "Customer"
    ensures RoleAccent(role) == AgentAccent ==> RoleLabel(role) == "You"
  {
  }

  /** `customer_name || customer_number`: an absent or empty name falls back
      to the number. */
  function DisplayName(c: Conversation): (name: string)
    ensures c.customerName.Some? && c.customerName.value != [] ==> name == c.customerName.value
    ensures c.customerName.None? || c.customerName.value == [] ==> name == c.customerNumber
  {
    if c.customerName.Some? && c.customerName.value != [] then c.customerName.value
    else c.customerNumber
  }

  /** `last_message || '—'`. */
  function Preview(c: Conversation): (text: string)
    ensures text != []
    ensures c.lastMessage.Some? && c.lastMessage.value != [] ==> text == c.lastMessage.value
    ensures c.lastMessage.None? || c.lastMessage.value == [] ==> text == "\U{2014}"
  {
    if c.lastMessage.Some? && c.lastMessage.value != [] then c.lastMessage.value else "\U{2014}"
  }

  // ---------------------------------------------------------------- events

  /** Everything that can move the inbox. */
  datatype Event =
    | Tick
    | ConversationsLoaded(list: Option<seq<Conversation>>)
    | StatsLoaded(stats: Option<Stats>)
    | Clicked(conversation: Conversation)
    | MessagesLoaded(messages: Option<seq<Message>>)
    | FilterClicked(filter: Filter)
    | ReplyEdited(text: string)
    | SendClicked
    | KeyPressed(key: string, shift: bool)
    | SendSettled(send: SendResult)
    | TakeoverClicked
    | TakeoverSettled(takeover: PostResult)
    | ResolveClicked
    | ResolveSettled(resolve: PostResult)

  /** The reply box of the selected conversation is on screen. */
  predicate ReplyBoxVisible(w: Inbox)
  {
    w.selected.Some? && ReplyBoxShown(w.selected.value)
  }

  /** Whether the user can fire `e`: a click needs its control on screen and
      enabled. Timer ticks and replies can always arrive. */
  predicate Offered(w: Inbox, e: Event)
  {
    match e
    case Clicked(c) => c in w.conversations
    case ReplyEdited(_) => ReplyBoxVisible(w)
    case SendClicked => ReplyBoxVisible(w) && !SendDisabled(w)
    case KeyPressed(_, _) => ReplyBoxVisible(w)
    case TakeoverClicked => w.selected.Some? && TakeoverShown(w.selected.value)
    case ResolveClicked => w.selected.Some? && ResolveShown(w.selected.value)
    case _ => true
  }

  /** One event. Enter goes to the corrected handler `KeyDown`, which
      ignores the key while a reply is in flight; only the send button and
      Enter can post a reply. */
  function Step(w: Inbox, e: Event): (o: Outcome)
    ensures e.KeyPressed? && w.sending ==> o.inbox == w && o.requests == []
    ensures !e.SendClicked? && !e.KeyPressed? ==> NoReplyPost(o.requests)
  {
    match e
    case Tick => Outcome(w, Refresh(w))
    case ConversationsLoaded(list) => Outcome(OnConversations(w, list), [])
    case StatsLoaded(stats) => Outcome(OnStats(w, stats), [])
    case Clicked(c) => Select(w, c)
    case MessagesLoaded(list) => Outcome(OnMessages(w, list), [])
    case FilterClicked(f) => SetFilter(w, f)
    case ReplyEdited(text) => Outcome(EditReply(w, text), [])
    case SendClicked => BeginSend(w)
    case KeyPressed(key, shift) => KeyDown(w, key, shift)
    case SendSettled(result) => FinishSend(w, result)
    case TakeoverClicked => Outcome(w, BeginTakeover(w))
    case TakeoverSettled(result) => FinishTakeover(w, result)
    case ResolveClicked => Outcome(w, BeginResolve(w))
    case ResolveSettled(result) => FinishResolve(w, result)
  }

  /** The requests contain no reply post. */
  predicate NoReplyPost(rs: seq<Request>)
  {
    forall i :: 0 <= i < |rs| ==> !rs[i].PostReply?
  }

  /** While a reply is being posted, no user action posts another one. */
  lemma OneReplyInFlight(w: Inbox, e: Event)
    requires w.sending && Offered(w, e)
    ensures NoReplyPost(Step(w, e).requests)
  {
  }

  /** A resolved conversation cannot be replied to: no user action posts a
      reply while it is selected. */
  lemma ResolvedLockout(w: Inbox, e: Event)
    requires w.selected.Some? && w.selected.value.status == Resolved && Offered(w, e)
    ensures NoReplyPost(Step(w, e).requests)
  {
  }

  /** An enabled send button posts exactly the trimmed, non-empty reply to the
      selected conversation. */
  lemma EnabledSendPostsTrimmedReply(w: Inbox)
    requires Offered(w, SendClicked)
    ensures Step(w, SendClicked).requests == [PostReply(w.selected.value.id, Text.Trim(w.reply))]
    ensures Step(w, SendClicked).inbox.sending
  {
  }

  /** A reply survives a failed post, so it can be sent again unchanged. */
  lemma FailedSendKeepsDraft(w: Inbox)
    requires Offered(w, SendClicked)
    ensures var sent := Step(w, SendClicked).inbox;
            var after := Step(sent, SendSettled(ReplyRejected)).inbox;
            after.reply == w.reply && !after.sending && !SendDisabled(after)
  {
  }
}

=== FILE: onboarding.dfy ===
/** The onboarding wizard: a five-form step machine (account, business
    details, hours and location, catalogue, WhatsApp) followed by a success
    screen, with an editable product catalogue.

    Sign-up and registration are asynchronous. `Continue` returns the request
    to issue as a `Command`, and the reply arrives later as a `SignupDone` or
    `RegisterDone` event. */
module OnboardingWizard {
  import opened Common
  import Text

  /** Titles of the five form steps, in order. */
  const StepTitles: seq<string> :=
    ["Create account", "Business details", "Hours & location", "Catalogue", "WhatsApp"]

  /** The step number of the success screen. */
  const SuccessStep: int := 5

  /** Shown when registration fails without a usable `detail`. */
  const DefaultSubmitError: string := "Something went wrong. Please try again."

  /** Button labels. */
  const WaitLabel: string := "Please wait\U{2026}"
  const FinishLabel: string := "Finish setup"
  const ContinueLabel: string := "Continue"

  // ---------------------------------------------------------------- catalogue

  /** One catalogue entry, every field a free-text input. */
  datatype Product = Product(name: string, price: string, size: string, description: string)

  /** The `field` argument of `updateProduct`. */
  datatype ProductField = Name | Price | Size | Description

  /** The value of one field of a product. */
  function FieldOf(p: Product, f: ProductField): string
  {
    match f
    case Name => p.name
    case Price => p.price
    case Size => p.size
    case Description => p.description
  }

  /** A product is determined by its four fields. */
  lemma ProductExtensionality(p: Product, q: Product)
    requires forall f :: FieldOf(p, f) == FieldOf(q, f)
    ensures p == q
  {
    assert FieldOf(p, Name) == FieldOf(q, Name);
    assert FieldOf(p, Price) == FieldOf(q, Price);
    assert FieldOf(p, Size) == FieldOf(q, Size);
    assert FieldOf(p, Description) == FieldOf(q, Description);
  }

  /** `{ ...p, [field]: value }`. */
  function WithField(p: Product, f: ProductField, v: string): (q: Product)
    ensures FieldOf(q, f) == v
    ensures forall g :: g != f ==> FieldOf(q, g) == FieldOf(p, g)
  {
    match f
    case Name => p.(name := v)
    case Price => p.(price := v)
    case Size => p.(size := v)
    case Description => p.(description := v)
  }

  /** `emptyProduct()`: every field is the empty string. */
  function EmptyProduct(): (p: Product)
    ensures forall f :: FieldOf(p, f) == ""
  {
    Product("", "", "", "")
  }

  /** `updateProduct(index, field, value)`: only `field` of entry `index`
      changes; an index out of range changes nothing. */
  function UpdateProduct(cat: seq<Product>, index: int, f: ProductField, v: string): (r: seq<Product>)
    ensures |r| == |cat|
    ensures forall j :: 0 <= j < |cat| && j != index ==> r[j] == cat[j]
    ensures 0 <= index < |cat| ==> FieldOf(r[index], f) == v
    ensures 0 <= index < |cat| ==>
              forall g :: g != f ==> FieldOf(r[index], g) == FieldOf(cat[index], g)
  {
    seq(|cat|, j requires 0 <= j < |cat| => if j == index then WithField(cat[j], f, v) else cat[j])
  }

  /** Writing back the value a field already has leaves the catalogue as it was. */
  lemma UpdateWithCurrentValueIsIdentity(cat: seq<Product>, index: int, f: ProductField)
    requires 0 <= index < |cat|
    ensures UpdateProduct(cat, index, f, FieldOf(cat[index], f)) == cat
  {
    var r := UpdateProduct(cat, index, f, FieldOf(cat[index], f));
    forall g | true
      ensures FieldOf(r[index], g) == FieldOf(cat[index], g)
    {
    }
    ProductExtensionality(r[index], cat[index]);
  }

  /** `addProduct()`: one empty product is appended. */
  function AddProduct(cat: seq<Product>): (r: seq<Product>)
    ensures |r| == |cat| + 1
    ensures r[..|cat|] == cat
    ensures forall f :: FieldOf(r[|cat|], f) == ""
  {
    cat + [EmptyProduct()]
  }

  /** `removeProduct(index)`: entry `index` is dropped, the others keep their
      order; an index out of range changes nothing. */
  function RemoveProduct(cat: seq<Product>, index: int): (r: seq<Product>)
    ensures 0 <= index < |cat| ==> |r| == |cat| - 1
    ensures !(0 <= index < |cat|) ==> r == cat
    ensures forall j :: 0 <= j < |r| && j < index ==> r[j] == cat[j]
    ensures forall j :: 0 <= index <= j < |r| ==> r[j] == cat[j + 1]
    ensures 0 <= index < |cat| ==> multiset(r) + multiset{cat[index]} == multiset(cat)
  {
    if 0 <= index < |cat| then
      assert cat == cat[..index] + [cat[index]] + cat[index + 1..];
      cat[..index] + cat[index + 1..]
    else
      cat
  }

  /** Removing the product just added gives the catalogue back. */
  lemma RemoveUndoesAdd(cat: seq<Product>)
    ensures RemoveProduct(AddProduct(cat), |cat|) == cat
  {
  }

  /** A product the backend will store: its name is not blank. */
  predicate Named(p: Product)
  {
    !Text.IsBlank(p.name)
  }

  /** `a` is obtained from `b` by deleting some entries. */
  predicate IsSubsequence<T(==)>(a: seq<T>, b: seq<T>)
    decreases |b|
  {
    if a == [] then true
    else if b == [] then false
    else (a[0] == b[0] && IsSubsequence(a[1..], b[1..])) || IsSubsequence(a, b[1..])
  }

  /** `catalogue.filter(p => p.name.trim())`: exactly the named products, in
      their original order, each as often as it occurs. */
  function SubmittedCatalogue(cat: seq<Product>): (r: seq<Product>)
    ensures forall j :: 0 <= j < |r| ==> Named(r[j])
    ensures IsSubsequence(r, cat)
    ensures forall p :: multiset(r)[p] == if Named(p) then multiset(cat)[p] else 0
    decreases |cat|
  {
    if cat == [] then []
    else
      var rest := SubmittedCatalogue(cat[1..]);
      assert multiset(cat) == multiset{cat[0]} + multiset(cat[1..]) by {
        assert cat == [cat[0]] + cat[1..];
      }
      if Named(cat[0]) then
        assert ([cat[0]] + rest)[1..] == rest;
        [cat[0]] + rest
      else
        rest
  }

  /** A catalogue of named products is submitted unchanged. */
  lemma {:induction false} SubmittedKeepsNamed(cat: seq<Product>)
    requires forall j :: 0 <= j < |cat| ==> Named(cat[j])
    ensures SubmittedCatalogue(cat) == cat
    decreases |cat|
  {
    if cat != [] {
      SubmittedKeepsNamed(cat[1..]);
    }
  }

  /** Filtering the catalogue twice is filtering it once. */
  lemma SubmittedIdempotent(cat: seq<Product>)
    ensures SubmittedCatalogue(SubmittedCatalogue(cat)) == SubmittedCatalogue(cat)
  {
    SubmittedKeepsNamed(SubmittedCatalogue(cat));
  }

  // ---------------------------------------------------------------- wizard

  /** The free-text inputs of steps 0, 1, 2 and 4. */
  datatype Form = Form(
    email: string, password: string,
    name: string, description: string, paymentMethods: string, deliveryInfo: string,
    greetingMessage: string, awayMessage: string,
    businessHours: string, location: string,
    phoneNumberId: string, accessToken: string, whatsappNumber: string)

  /** The wizard's local state. */
  datatype Wizard = Wizard(
    step: int,
    loading: bool,
    error: Option<string>,
    userId: Option<UserId>,
    form: Form,
    catalogue: seq<Product>)

  /** The body of `POST /api/businesses/register`. */
  datatype Payload = Payload(
    userId: Option<UserId>,
    name: string, description: string, paymentMethods: string, deliveryInfo: string,
    greetingMessage: string, awayMessage: string,
    businessHours: string, location: string,
    phoneNumberId: string, accessToken: string, whatsappNumber: string,
    catalogue: seq<Product>)

  /** The request a transition asks the environment to perform. */
  datatype Command =
    | NoCommand
    | SignUp(email: string, password: string)
    | Register(payload: Payload)
    | Complete(businessId: BusinessId)   // `onComplete(business_id)`

  /** Result of `signUp(email, password)`: an error message, the new user
      (whose id may be absent), or a rejected promise. `handleStep0` awaits
      `signUp` outside any `try`, so a rejection ends the handler before it
      clears `loading`. */
  datatype SignupResult =
    | SignupFailed(message: string)
    | SignedUp(userId: Option<UserId>)
    | SignupThrew

  /** Result of the registration post: the new business id, or a failure
      with the backend's `detail`, if any. */
  datatype RegisterResult = Registered(businessId: BusinessId) | RegisterFailed(detail: Option<string>)

  /** A new state together with the request it issues. */
  datatype Outcome = Outcome(wizard: Wizard, command: Command)

  /** The state when the wizard mounts. */
  function Init(): (w: Wizard)
    ensures w.step == 0 && !w.loading && w.error == None && w.userId == None
    ensures |w.catalogue| == 1 && forall f :: FieldOf(w.catalogue[0], f) == ""
    ensures w.form == Form("", "", "", "", "", "", "", "", "", "", "", "", "")
    ensures Valid(w)
  {
    var blank := Form("", "", "", "", "", "", "", "", "", "", "", "", "");
    Wizard(0, false, None, None, blank, [EmptyProduct()])
  }

  /** The payload built by `handleSubmit`: the form's business fields, the
      user id obtained at sign-up, and only the named products. The
      credentials are not sent. */
  function BuildPayload(w: Wizard): (p: Payload)
    ensures p.userId == w.userId
    ensures p.catalogue == SubmittedCatalogue(w.catalogue)
    ensures forall j :: 0 <= j < |p.catalogue| ==> Named(p.catalogue[j])
    ensures p.name == w.form.name && p.description == w.form.description
    ensures p.paymentMethods == w.form.paymentMethods && p.deliveryInfo == w.form.deliveryInfo
    ensures p.greetingMessage == w.form.greetingMessage && p.awayMessage == w.form.awayMessage
    ensures p.businessHours == w.form.businessHours && p.location == w.form.location
    ensures p.phoneNumberId == w.form.phoneNumberId && p.accessToken == w.form.accessToken
    ensures p.whatsappNumber == w.form.whatsappNumber
  {
    var f := w.form;
    Payload(w.userId, f.name, f.description, f.paymentMethods, f.deliveryInfo,
            f.greetingMessage, f.awayMessage, f.businessHours, f.location,
            f.phoneNumberId, f.accessToken, f.whatsappNumber,
            SubmittedCatalogue(w.catalogue))
  }

  /** `handleContinue`: clears the error; step 0 starts sign-up, step 4
      starts registration, any other step advances by one. */
  function Continue(w: Wizard): (o: Outcome)
    ensures o.wizard.error == None
    ensures o.wizard.userId == w.userId && o.wizard.form == w.form
    ensures o.wizard.catalogue == w.catalogue
    ensures w.step == 0 ==>
              o.wizard.step == 0 && o.wizard.loading
              && o.command == SignUp(w.form.email, w.form.password)
    ensures w.step == 4 ==>
              o.wizard.step == 4 && o.wizard.loading && o.command == Register(BuildPayload(w))
    ensures w.step != 0 && w.step != 4 ==>
              o.wizard.step == w.step + 1 && o.wizard.loading == w.loading && o.command == NoCommand
  {
    var cleared := w.(error := None);
    if w.step == 0 then Outcome(cleared.(loading := true), SignUp(w.form.email, w.form.password))
    else if w.step == 4 then Outcome(cleared.(loading := true), Register(BuildPayload(w)))
    else Outcome(cleared.(step := w.step + 1), NoCommand)
  }

  /** `handleBack`: clears the error and goes back one step. */
  function Back(w: Wizard): (r: Wizard)
    ensures r.step == w.step - 1 && r.error == None
    ensures r.loading == w.loading && r.userId == w.userId
    ensures r.form == w.form && r.catalogue == w.catalogue
  {
    w.(error := None, step := w.step - 1)
  }

  /** The continuation of `handleStep0`: a failure keeps the step and shows
      the message; a success stores the user id and moves to step 1; a
      rejected promise changes nothing, so `loading` stays as it was. */
  function OnSignup(w: Wizard, result: SignupResult): (r: Wizard)
    ensures !result.SignupThrew? ==> !r.loading
    ensures result.SignupThrew? ==> r == w
    ensures r.form == w.form && r.catalogue == w.catalogue
    ensures result.SignupFailed? ==>
              r.step == w.step && r.error == Some(result.message) && r.userId == w.userId
    ensures result.SignedUp? ==> r.step == 1 && r.userId == result.userId && r.error == w.error
  {
    match result
    case SignupFailed(message) => w.(error := Some(message), loading := false)
    case SignedUp(id) => w.(userId := id, loading := false, step := 1)
    case SignupThrew => w
  }

  /** `err.response?.data?.detail || default`: an absent or empty detail
      falls back to the fixed message. */
  function SubmitError(detail: Option<string>): (msg: string)
    ensures msg != []
    ensures detail.Some? && detail.value != [] ==> msg == detail.value
    ensures detail.None? || detail.value == [] ==> msg == DefaultSubmitError
  {
    if detail.Some? && detail.value != [] then detail.value else DefaultSubmitError
  }

  /** The continuation of `handleSubmit`: success shows the success screen
      and hands the business id to the shell; failure keeps the step and
      shows an error. Loading ends either way. */
  function OnRegister(w: Wizard, result: RegisterResult): (o: Outcome)
    ensures !o.wizard.loading
    ensures o.wizard.form == w.form && o.wizard.catalogue == w.catalogue
    ensures o.wizard.userId == w.userId
    ensures result.Registered? ==>
              o.wizard.step == SuccessStep && o.command == Complete(result.businessId)
    ensures result.Registered? ==> o.wizard == w.(step := SuccessStep, loading := false)
    ensures result.RegisterFailed? ==>
              o.wizard.step == w.step && o.command == NoCommand
              && o.wizard.error == Some(SubmitError(result.detail))
  {
    match result
    case Registered(id) => Outcome(w.(step := SuccessStep, loading := false), Complete(id))
    case RegisterFailed(detail) =>
      Outcome(w.(error := Some(SubmitError(detail)), loading := false), NoCommand)
  }

  /** The label of the main button. */
  function ContinueButtonLabel(w: Wizard): (text: string)
    ensures text == WaitLabel <==> w.loading
    ensures text == FinishLabel <==> !w.loading && w.step == 4
    ensures text == ContinueLabel <==> !w.loading && w.step != 4
  {
    if w.loading then WaitLabel else if w.step == 4 then FinishLabel else ContinueLabel
  }

  /** The forward chevron follows the label on steps 0-3 unless loading. */
  function ShowsChevron(w: Wizard): (shown: bool)
    ensures shown ==> ContinueButtonLabel(w) == ContinueLabel
    ensures shown <==> !w.loading && w.step < 4
  {
    !w.loading && w.step < 4
  }

  /** The decimal numeral of a single digit. */
  function Digit(n: int): (c: char)
    requires 0 <= n <= 9
  {
    ('0' as int + n) as char
  }

  /** "Step n of 5 — title", shown above the form of step `step`. */
  function StepHeading(step: int): (h: string)
    requires 0 <= step < |StepTitles|
    ensures |h| == 14 + |StepTitles[step]|
    ensures h[..5] == "Step " && h[5] == Digit(step + 1)
    ensures h[6..14] == " of 5 \U{2014} "
    ensures |h| >= |StepTitles[step]| && h[|h| - |StepTitles[step]|..] == StepTitles[step]
  {
    var prefix := "Step " + [Digit(step + 1)] + " of " + [Digit(|StepTitles|)] + " \U{2014} ";
    assert |prefix| == 14;
    prefix + StepTitles[step]
  }

  /** Different steps carry different headings. */
  lemma StepHeadingsDistinct(i: int, j: int)
    requires 0 <= i < |StepTitles| && 0 <= j < |StepTitles| && i != j
    ensures StepHeading(i) != StepHeading(j)
  {
    assert StepHeading(i)[5] != StepHeading(j)[5];
  }

  // ---------------------------------------------------------------- events

  /** Everything that can move the wizard. */
  datatype Event =
    | ContinuePressed
    | BackPressed
    | AddPressed
    | RemovePressed(index: int)
    | ProductEdited(index: int, field: ProductField, value: string)
    | FormEdited(form: Form)
    | SignupDone(signup: SignupResult)
    | RegisterDone(register: RegisterResult)

  /** Whether the user can fire `e` in state `w`: the navigation bar is not
      rendered on the success screen, Continue is disabled while loading,
      Back is shown only after step 0, the catalogue controls only on step 3
      and the remove button only while more than one product is left.
      Replies to earlier requests can always arrive. */
  predicate Offered(w: Wizard, e: Event): (ok: bool)
    ensures ok && e.ContinuePressed? ==> ContinueButtonLabel(w) != WaitLabel
    ensures ok && e.RemovePressed? ==> |RemoveProduct(w.catalogue, e.index)| >= 1
    ensures ok && (e.ProductEdited? || e.RemovePressed?) ==> 0 <= e.index < |w.catalogue|
  {
    match e
    case ContinuePressed => w.step != SuccessStep && !w.loading
    case BackPressed => w.step != SuccessStep && w.step > 0
    case AddPressed => w.step == 3
    case RemovePressed(i) => w.step == 3 && |w.catalogue| > 1 && 0 <= i < |w.catalogue|
    case ProductEdited(i, _, _) => w.step == 3 && 0 <= i < |w.catalogue|
    case FormEdited(_) => w.step != SuccessStep
    case SignupDone(_) => true
    case RegisterDone(_) => true
  }

  /** One event. Only Continue and the registration reply issue a request;
      only navigation and the replies move the step; only the catalogue
      controls touch the catalogue. */
  function Step(w: Wizard, e: Event): (o: Outcome)
    ensures o.command != NoCommand ==> e.ContinuePressed? || e.RegisterDone?
    ensures !(e.ContinuePressed? || e.BackPressed? || e.SignupDone? || e.RegisterDone?) ==>
              o.wizard.step == w.step
    ensures !(e.AddPressed? || e.RemovePressed? || e.ProductEdited?) ==>
              o.wizard.catalogue == w.catalogue
  {
    match e
    case ContinuePressed => Continue(w)
    case BackPressed => Outcome(Back(w), NoCommand)
    case AddPressed => Outcome(w.(catalogue := AddProduct(w.catalogue)), NoCommand)
    case RemovePressed(i) => Outcome(w.(catalogue := RemoveProduct(w.catalogue, i)), NoCommand)
    case ProductEdited(i, f, v) => Outcome(w.(catalogue := UpdateProduct(w.catalogue, i, f, v)), NoCommand)
    case FormEdited(form) => Outcome(w.(form := form), NoCommand)
    case SignupDone(result) => Outcome(OnSignup(w, result), NoCommand)
    case RegisterDone(result) => OnRegister(w, result)
  }

  /** The states the wizard can be in through its own controls: a step
      between 0 and the success screen, and a non-empty catalogue. */
  predicate Valid(w: Wizard)
  {
    0 <= w.step <= SuccessStep && |w.catalogue| >= 1
  }

  /** An offered event keeps a valid state valid. */
  lemma StepKeepsValid(w: Wizard, e: Event)
    requires Valid(w) && Offered(w, e)
    ensures Valid(Step(w, e).wizard)
  {
  }

  /** Events applied in order, each offered in the state it meets. */
  predicate Admissible(w: Wizard, events: seq<Event>)
    decreases |events|
  {
    events == [] || (Offered(w, events[0]) && Admissible(Step(w, events[0]).wizard, events[1..]))
  }

  /** The state after a sequence of events. */
  function Run(w: Wizard, events: seq<Event>): Wizard
    decreases |events|
  {
    if events == [] then w else Run(Step(w, events[0]).wizard, events[1..])
  }

  /** Through the wizard's own controls, the step never leaves 0..5 and the
      catalogue is never emptied. */
  lemma {:induction false} AdmissibleRunKeepsValid(w: Wizard, events: seq<Event>)
    requires Valid(w) && Admissible(w, events)
    ensures Valid(Run(w, events))
    decreases |events|
  {
    if events != [] {
      StepKeepsValid(w, events[0]);
      AdmissibleRunKeepsValid(Step(w, events[0]).wizard, events[1..]);
    }
  }

  /** Continue on steps 1-3 followed by Back returns to the same step. */
  lemma BackUndoesContinue(w: Wizard)
    requires 1 <= w.step <= 3
    ensures Back(Continue(w).wizard) == w.(error := None)
  {
  }

  /** An event the user fires: anything but the reply to a request. */
  predicate UserEvent(e: Event)
  {
    !e.SignupDone? && !e.RegisterDone?
  }

  /** A rejected `signUp` strands the wizard: loading stays on, and no user
      action clears it, so Continue stays disabled and reads "Please wait…"
      for good. */
  lemma {:induction false} SignupThrowStrands(w: Wizard, events: seq<Event>)
    requires w.step == 0
    requires forall i :: 0 <= i < |events| ==> UserEvent(events[i])
    ensures var stuck := OnSignup(Continue(w).wizard, SignupThrew);
            var later := Run(stuck, events);
            && later.loading
            && !Offered(later, ContinuePressed)
            && ContinueButtonLabel(later) == WaitLabel
  {
    var stuck := OnSignup(Continue(w).wizard, SignupThrew);
    UserEventsKeepLoading(stuck, events);
  }

  /** No user action turns `loading` off. */
  lemma {:induction false} UserEventsKeepLoading(w: Wizard, events: seq<Event>)
    requires w.loading
    requires forall i :: 0 <= i < |events| ==> UserEvent(events[i])
    ensures Run(w, events).loading
    decreases |events|
  {
    if events != [] {
      UserEventsKeepLoading(Step(w, events[0]).wizard, events[1..]);
    }
  }
}

=== FILE: text.dfy ===
/** The two JavaScript string operations the dashboard relies on:
    `String.prototype.trim` (used to decide whether a name or a reply is blank)
    and "first letter upper-cased" (used for status badges). */
module Text {

  /** ECMAScript WhiteSpace and LineTerminator code points: the characters
      `trim` strips from both ends of a string. The Unicode "Zs" category
      is written out. */
  predicate IsSpace(c: char)
  {
    || c == '\t' || c == '\n' || c == '\U{000B}' || c == '\U{000C}' || c == '\r'
    || c == ' ' || c == '\U{00A0}' || c == '\U{1680}'
    || ('\U{2000}' <= c <= '\U{200A}')
    || c == '\U{2028}' || c == '\U{2029}' || c == '\U{202F}' || c == '\U{205F}'
    || c == '\U{3000}' || c == '\U{FEFF}'
  }

  /** Every character of `s` is whitespace. */
  predicate AllSpace(s: string)
  {
    forall i :: 0 <= i < |s| ==> IsSpace(s[i])
  }

  /** `s` with its leading whitespace removed. */
  function TrimStart(s: string): (r: string)
    ensures |r| <= |s| && r == s[|s| - |r|..]
    ensures AllSpace(s[..|s| - |r|])
    ensures r != [] ==> !IsSpace(r[0])
    decreases |s|
  {
    if s != [] && IsSpace(s[0]) then TrimStart(s[1..]) else s
  }

  /** `s` with its trailing whitespace removed. */
  function TrimEnd(s: string): (r: string)
    ensures |r| <= |s| && r == s[..|r|]
    ensures AllSpace(s[|r|..])
    ensures r != [] ==> !IsSpace(r[|r| - 1])
    decreases |s|
  {
    if s != [] && IsSpace(s[|s| - 1]) then TrimEnd(s[..|s| - 1]) else s
  }

  /** JavaScript `s.trim()`. */
  function Trim(s: string): (r: string)
    ensures |r| <= |s|
    ensures r != [] ==> !IsSpace(r[0]) && !IsSpace(r[|r| - 1])
  {
    TrimEnd(TrimStart(s))
  }

  /** The JavaScript test `!s.trim()`: the trimmed string is empty, hence falsy. */
  predicate IsBlank(s: string)
  {
    Trim(s) == []
  }

  /** `s.trim()` is `s` with a whitespace prefix and a whitespace suffix cut
      off, and nothing else changed. */
  lemma TrimIsInfix(s: string)
    ensures var a := |s| - |TrimStart(s)|;
            && a + |Trim(s)| <= |s|
            && Trim(s) == s[a..a + |Trim(s)|]
            && AllSpace(s[..a])
            && AllSpace(s[a + |Trim(s)|..])
  {
  }

  /** A string is blank exactly when it consists only of whitespace. */
  lemma {:induction false} BlankIffAllSpace(s: string)
    ensures IsBlank(s) <==> AllSpace(s)
  {
  }

  /** Trimming twice is trimming once. */
  lemma TrimIdempotent(s: string)
    ensures Trim(Trim(s)) == Trim(s)
  {
    var r := Trim(s);
    if r != [] {
      assert TrimStart(r) == r;
      assert TrimEnd(r) == r;
    }
  }

  /** JavaScript `c.toUpperCase()` for the ASCII letters a-z. */
  function UpperChar(c: char): (u: char)
    ensures 'a' <= c <= 'z' ==> 'A' <= u <= 'Z' && u as int - c as int == 'A' as int - 'a' as int
    ensures !('a' <= c <= 'z') ==> u == c
  {
    if 'a' <= c <= 'z' then (c as int - 'a' as int + 'A' as int) as char else c
  }

  /** JavaScript `s.charAt(0).toUpperCase() + s.slice(1)`; the empty string
      stays empty. */
  function Capitalize(s: string): (r: string)
    ensures |r| == |s|
    ensures r != [] ==> r[0] == UpperChar(s[0]) && r[1..] == s[1..]
  {
    if s == [] then [] else [UpperChar(s[0])] + s[1..]
  }
}
